=== FILE: README.md ===
# PostureAI posture engine — a Dafny model

PostureAI watches a person through a webcam and flags bad posture. A pose
model returns 33 body landmarks per camera frame. The core takes it from
there:

- it picks the fifteen joints the rules use;
- it runs a rule set that depends on the mode (desk posture or squat form);
- it keeps running session statistics (frames analysed, frames with a
  violation, rounded accuracy);
- it forwards each violation to a listener;
- when a session ends, it hands a summary to the history.

The dashboard and analytics views then aggregate that history. They count
violations per type, show the last sessions and violations, and compute the
average accuracy, the posture score, the trend and an hour-of-day
histogram.

The model is split into these files:

- `wrappers.dfy`: `Option`, for the program's `null`.
- `rounding.dfy`: `JsRound`, which is `Math.round` over exact
  reals; the integer formula `RoundDiv` and its equivalence to `JsRound`.
- `geometry.dfy`: landmarks, the three-point angle, midpoints, tilt.
  `Math.atan2` followed by the conversion to degrees is a parameter of type
  `Atan2Deg`: any function whose values lie in (-180, 180].
- `keypoints.dfy`: the index table and `extractKeypoints`.
- `rules.dfy`: the five rules, the desk and squat checks, and the dispatch
  on the mode.
- `session.dfy`: the session statistics and their per-frame update.
- `analyzer.dfy`: the live controller, covering the frame handler, the
  camera, pause, mode, end-of-session and event sequences. It also holds
  the handler as it is actually registered (see Findings).
- `dashboard.dfy` and `analytics.dfy`: the history aggregations.

Notes on behaviour a reader might not expect:

- The session duration is computed by `endSession` itself, as
  `floor(totalFrames / 10)` (it assumes about 10 frames per second).
- A summary's `violations` field is the number of violations in the LAST
  analysed frame (`currentViolations.length`), not a session total.
- The desk slouch rule measures the hip-to-shoulder segment's direction
  from the horizontal axis. So a perfectly upright torso measures 90
  degrees and is reported as a slouch of severity error. The model keeps
  this rule as written, and `Rules.UprightTorsoReportedAsSlouch` states it.
- The mode can only be changed through the mode selector, which is
  disabled while the camera streams. Ending a session does not stop the
  camera, so it does not unlock the mode either. Stopping the camera
  unlocks the selector without ending the session: neither `stopCamera` nor
  `startCamera` resets the statistics. So Stop, a switch of mode and a
  restart continue the same session, and one summary can mix frames
  evaluated under both rule sets while carrying only the last mode
  (`Analyzer.ModeChangesMidSession`).
- Pressing End Session a second time, with no frame in between, emits
  another summary with statistics 0 / 0 / 100% and duration 0. The
  dashboard and analytics averages count it as a 100% session.
- The session lifecycle is not a single enumeration. It is the flags
  `isLoading`, `isStreaming` and `isPaused`, and the model keeps them as
  flags. Starting the camera takes two steps. The click binds the frame
  handler and sets `isLoading`. Streaming starts only when the camera
  `await` settles, and during that window the mode selector is still
  enabled.
- Each button acts only where the interface shows and enables it. Start
  acts while neither streaming nor loading; Pause, Stop and End Session act
  while streaming; the mode selector acts while not streaming.

## Model

| member | source | states |
|---|---|---|
| Rounding.RoundDivIsJsRound | src/components/PoseAnalyzer.tsx:53 | The integer formula `(2n + d) div 2d` equals `Math.round(n / d)` for every n and every d > 0, so the rounded accuracies below can be computed exactly. |
| Rounding.RoundDivBounds | src/components/Dashboard.tsx:33-35 | Rounding a quotient that lies between lo and hi gives a value between lo and hi. |
| Keypoints.Extract | src/utils/poseDetection.ts:111-131 | No keypoints exactly when the list is missing or shorter than 33; otherwise every named joint is the landmark at its fixed MediaPipe index. |
| Keypoints.ExtractEmbed | src/utils/poseDetection.ts:115-131 | Round trip: place any keypoints at their indices in a 33-entry list and extraction returns the same keypoints, so no joint is lost or moved. |
| Keypoints.ExtractReadsOnlyTable | src/utils/poseDetection.ts:115-131 | Two landmark lists that agree at the fifteen table indices give the same keypoints; no other entry matters. |
| Geometry.Angle | src/utils/poseDetection.ts:138-152 | The angle at the vertex lies in [0, 180]. It is one of the two arcs between the ray directions and is never larger than either arc. |
| Geometry.AngleSymmetric | src/utils/poseDetection.ts:144-152 | Swapping the two outer points leaves the angle unchanged. |
| Geometry.AngleOfCoincidentPoints | src/utils/poseDetection.ts:144-152 | Identical outer points make a zero angle. |
| Geometry.Midpoint | src/utils/poseDetection.ts:192-200 | The midpoint is equidistant, coordinate-wise, from both points. |
| Geometry.Tilt | src/utils/poseDetection.ts:202-205 | The torso direction in degrees lies in (-180, 180]. |
| Rules.NeckRule | src/utils/poseDetection.ts:163-184 | Fires exactly when nose, left ear and left shoulder are visible (> 0.5) and the neck angle exceeds 30. Severity is error iff the angle exceeds 45. Carries the source's message, rule, angle and threshold 30. |
| Rules.SlouchRule | src/utils/poseDetection.ts:186-218 | Fires exactly when both shoulders and both hips are visible and the absolute torso tilt exceeds 15. Severity is error iff it exceeds 25. Carries the source's message and rule, the absolute tilt as angle, and threshold 15. |
| Rules.KneeOverToeRule | src/utils/poseDetection.ts:230-244 | Fires exactly when left knee and ankle are visible and the horizontal offset's magnitude exceeds 0.05. Always an error. Carries the source's message and rule, and the offset times 100 against threshold 5. |
| Rules.BackAngleRule | src/utils/poseDetection.ts:246-267 | Fires exactly when left shoulder, hip and knee are visible and the hip angle is below 150. Severity is error iff it is below 130. Carries the source's message and rule, the angle and threshold 150. |
| Rules.SquatDepthRule | src/utils/poseDetection.ts:269-283 | Fires exactly when left hip and knee are visible and the hip sits less than 0.02 above the knee. Always a warning. Carries the source's message and rule, and the drop times 100 against threshold -2. |
| Rules.CheckDeskPosture | src/utils/poseDetection.ts:159-224 | At most two violations, in rule order. Each desk rule that fires is reported, and nothing else is. |
| Rules.CheckSquatForm | src/utils/poseDetection.ts:226-289 | At most three violations, in rule order. Each squat rule that fires is reported, and nothing else is. |
| Rules.Evaluate | src/components/PoseAnalyzer.tsx:43-45 | Desk mode reports exactly the desk rules that fire and squat mode exactly the squat rules, in rule order. |
| Rules.DeskSilentWithoutLeftShoulder | src/utils/poseDetection.ts:164-190 | Both desk rules need the left shoulder, so an unobserved left shoulder yields no desk violation at all. |
| Rules.SquatSilentWithoutLeftKnee | src/utils/poseDetection.ts:231-270 | Every squat rule needs the left knee, so an unobserved left knee yields no squat violation at all. |
| Rules.KneeOverToeBoundary | src/utils/poseDetection.ts:231-243 | The limit is strict: an offset of exactly 0.05 is not reported, and a larger one is reported first, as an error. |
| Rules.UprightTorsoReportedAsSlouch | src/utils/poseDetection.ts:192-216 | With shoulders straight above the hips, the rule as written measures 90 degrees and reports an error-level slouch. |
| Session.AccuracyOf | src/components/PoseAnalyzer.tsx:53 | 100 before any frame. Otherwise `Math.round` of the clean-frame percentage, which lies in [0, 100] when violating frames do not outnumber frames. |
| Session.Record | src/components/PoseAnalyzer.tsx:50-60 | One more frame. One more violating frame exactly when the frame had a violation. Statistics stay consistent (violating ≤ total, accuracy matches the counts). |
| Session.RecordAllCounts | src/components/PoseAnalyzer.tsx:50-60 | After any run of frames, the total grows by the number of frames and the violating count by the number of frames with violations. |
| Session.RecordAllValid | src/components/PoseAnalyzer.tsx:50-60 | After any run of frames from consistent statistics, violating ≤ total still holds and the accuracy is still the rounded clean-frame percentage of the counts. |
| Session.TenFramesThreeViolating | src/components/PoseAnalyzer.tsx:51-53 | Ten frames, three of them violating, give statistics 10 / 3 / 70%. |
| Analyzer.OnResults | src/components/PoseAnalyzer.tsx:34-71 | A paused controller, missing results or an incomplete landmark list leave the state alone and report nothing. Otherwise the mode's rules are evaluated, reported in order and shown, and the frame is recorded, counted as violating iff something was reported. The invariant is kept. |
| Analyzer.FreshSatisfiesInv | src/components/PoseAnalyzer.tsx:17-25 | The initial state (desk mode, camera off, not loading, not paused, no violations, statistics 0 / 0 / 100%) satisfies the controller invariant. |
| Analyzer.StartCamera | src/components/PoseAnalyzer.tsx:79-89 | The Start click, up to the camera `await`. With the camera off and not loading, it sets loading and changes nothing else. Otherwise, when the button is hidden or disabled, it changes nothing. |
| Analyzer.CameraReady | src/components/PoseAnalyzer.tsx:92-107 | When the camera `await` settles, loading ends and streaming starts iff the camera came up. Nothing else changes, and nothing happens when no start is pending. |
| Analyzer.StopCamera | src/components/PoseAnalyzer.tsx:110-132 | Streaming and pause end and the shown violations are cleared. The session statistics, the mode and the loading flag survive. |
| Analyzer.TogglePause | src/components/PoseAnalyzer.tsx:192-203 | While streaming, the pause flag flips; otherwise nothing changes. Statistics, mode, streaming, loading and the shown violations are untouched. |
| Analyzer.SelectMode | src/components/PoseAnalyzer.tsx:168-171 | The mode changes to the chosen one only when the camera is off; nothing else changes. |
| Analyzer.EndSession | src/components/PoseAnalyzer.tsx:134-150 | The summary carries the mode, the statistics, the duration floor(frames / 10) and the last frame's violation count. The statistics are reset and nothing else changes. |
| Analyzer.EndSessionIdempotent | src/components/PoseAnalyzer.tsx:144-149 | Ending a session twice leaves the same controller state as ending it once. |
| Analyzer.RunPreservesInv | src/components/PoseAnalyzer.tsx:17-25 | For the controller with the live-flag handler `OnResults`: from any state that satisfies the invariant (`FreshSatisfiesInv`: the initial state does), any sequence of frames and controls keeps the statistics consistent, never pauses a camera that is off, and never loads while streaming. |
| Analyzer.ModeFixedWhileStreaming | src/components/PoseAnalyzer.tsx:168-171 | For the controller with the live-flag handler `OnResults`: while the camera streams, no sequence of frames, pauses, mode choices, starts, camera-ready signals or session ends changes the mode or ends the streaming; only stopping does. |
| Analyzer.OnResultsAsRegistered | src/components/PoseAnalyzer.tsx:89 | The handler handed to the pose model reads the pause flag and mode of the render in which the camera started. Whether a frame is counted follows that stale flag. A counted frame reports exactly the violations of the stale mode's rules, and the live statistics record it. An uncounted frame changes nothing. |
| Analyzer.PauseIgnoredAsRegistered | src/components/PoseAnalyzer.tsx:35 | After starting the camera and pressing Pause, the registered handler still counts a full frame, whereas the live-flag handler leaves the state alone. |
| Analyzer.ModeSwitchedWhileLoading | src/components/PoseAnalyzer.tsx:43 | Switching from desk to squat while the camera loads leaves the registered handler on the desk rules. A frame with a knee-over-toe violation and an unseen left shoulder is reported by nobody and counted as clean. The live handler would report it, and the session summary says squat. |
| Analyzer.RunAsWrittenPreservesInv | src/components/PoseAnalyzer.tsx:34-150 | For the program as written, where frames go to the handler bound at the last Start click (line 89): any sequence of frames and controls from a state that satisfies the invariant keeps the statistics consistent, never pauses a camera that is off, and never loads while streaming. |
| Analyzer.ModeFixedWhileStreamingAsWritten | src/components/PoseAnalyzer.tsx:168-171 | For the program as written: while the camera streams, no sequence of events other than Stop changes the mode or ends the streaming. |
| Analyzer.ModeChangesMidSession | src/components/PoseAnalyzer.tsx:110-138 | From a streaming desk session with frames recorded, Stop, choosing squat and restarting leave the statistics untouched. The next summary carries all those frames labelled squat. |
| Dashboard.ViolationsByType | src/components/Dashboard.tsx:19-25 | (Folded over the list as `forEach` does.) A type has an entry exactly when some violation has that type. Its value is the number of violations of that type (at least 1). The entries add up to the number of violations. |
| Dashboard.CountKindPositive | src/components/Dashboard.tsx:21-23 | A type's count is positive exactly when some violation has that type. |
| Dashboard.CountsAddUp | src/components/Dashboard.tsx:19-25 | Every violation has exactly one of the five types, so the per-type counts sum to the number of violations. |
| Dashboard.LastN | src/components/Dashboard.tsx:30 | `slice(-n)` keeps min(n, length) elements, and they are exactly the input's last ones. |
| Dashboard.Reverse | src/components/Dashboard.tsx:30 | Same length, and element i is the input's element length-1-i. |
| Dashboard.RecentSessions | src/components/Dashboard.tsx:29-31 | The last five sessions (or all, if fewer), newest first. |
| Dashboard.RecentViolations | src/components/Dashboard.tsx:162 | The last ten violations (or all), newest first. |
| Dashboard.SumAccuracyBounds | src/components/Dashboard.tsx:34 | Summing n accuracies that each lie in [0, 100] gives a total in [0, 100 n]. |
| Dashboard.AverageAccuracy | src/components/Dashboard.tsx:33-35 | 0 for an empty history. Otherwise `Math.round` of the exact mean accuracy, which lies in [0, 100] when the sessions' accuracies do. |
| Dashboard.AccuracyBand | src/components/Dashboard.tsx:127-131 | Green iff accuracy > 90, yellow iff 70 < accuracy ≤ 90, red iff accuracy ≤ 70. |
| Analytics.PostureScore | src/components/Analytics.tsx:53-57 | 0 for an empty history. Otherwise `Math.round` of the mean accuracy of the last ten sessions, in [0, 100]. |
| Analytics.OlderWindow | src/components/Analytics.tsx:64 | `slice(-10, -5)`: empty for five or fewer sessions. Otherwise the up to five sessions directly before the last five. |
| Analytics.Trend | src/components/Analytics.tsx:61-72 | 0 for five or fewer sessions. Otherwise `Math.round` of the mean of the last five minus the mean of the up to five before them, in [-100, 100]. |
| Analytics.HoursCoverAll | src/components/Analytics.tsx:43-46 | Every violation falls in exactly one of the 24 hours, so the per-hour counts sum to the number of violations. |
| Analytics.HourlyPattern | src/components/Analytics.tsx:37-49 | The keys are exactly the hours 0..23. Each bucket holds the number of violations recorded in that hour, and the buckets add up to the number of violations. |

## Left out

- Floating point: the model computes over exact reals. Line 53 of PoseAnalyzer.tsx divides before multiplying by 100, and the rounding error of the division can push the product just below a .5 boundary. For 40 frames of which 17 violate, IEEE doubles give `(23 / 40) * 100 = 57.49999999999999`, so the program shows 57 where the model (exactly 57.5) gives 58. The dashboard and analytics averages divide an integer sum once and are not affected in the same way.
- `Math.atan2` and `Math.PI`: trigonometry is a parameter (`Atan2Deg`) constrained only to (-180, 180]. The property that three colinear points, with the vertex between them, make a 180-degree angle depends on atan2's actual values, so it is not stated.
- Geometry.Tilt: states only the range of the torso direction, because the direction itself comes from the `Atan2Deg` parameter.
- The `PoseDetector` class (MediaPipe set-up, camera frames, `send`, `close`), the video element and media tracks are I/O. Whether the camera came up is the `cameraUp` argument of `Analyzer.CameraReady`.
- `try`/`catch` and `console` logging: the model has no exceptions. The `calculateAngle` catch returning 0 and the null return in the `extractKeypoints` catch guard against runtime faults that exact arithmetic on complete records cannot raise.
- The `poseResults` and `error` state, the unmount clean-up and everything rendered (canvas drawing, panels, icons, theme) are presentation only.
- The listener calls (`onViolation`, `onAnalysisComplete`) are modelled as the returned `reported` sequence and `Summary`. The history lists they append to are plain sequences.
- Violation `id`, `timestamp` and the session `date`: the history keeps only the hour of day of each violation (`Dashboard.LoggedViolation`). The date-based views (`getWeeklyStats`, the "today" filters, the peak-hours ranking) depend on the wall clock and are not modelled.
- Violation types are the five rule kinds, not free strings. The per-type map is over that enumeration.
- Dashboard.ViolationsByType: a Dafny `map` has no key order. The program's object keeps the order in which each type first occurs, and Dashboard.tsx:95 lists the types in that order through `Object.entries`; that display order is not modelled.
- `VideoUpload` (a simulated file analysis with fixed mock results), `App` routing and the theme context are outside the posture core.
- The session history is restricted to live-session summaries (`Analyzer.Summary`). In the program, App.tsx:81 also appends VideoUpload's result object to the same history (VideoUpload.tsx:50-82). That object has `accuracy` at the top level and no `stats`, so reading `session.stats.accuracy` for it (Dashboard.tsx:34 and 128, Analytics.tsx:56 and 68-69) throws a TypeError while the view renders. `Dashboard.AverageAccuracy`, `Dashboard.RecentSessions`, `Analytics.PostureScore` and `Analytics.Trend` say nothing about such a history.
- Dashboard.LastN: requires n > 0; `slice(-0)` would return the whole list, and every call site passes 5 or 10.

## Findings

| source | as written | input that shows it | evidently intended | confidence | as-written member | corrected member |
|---|---|---|---|---|---|---|
| src/components/PoseAnalyzer.tsx:89 | The frame handler is created in the render in which `startCamera` runs and is handed once to the pose model. Its `isPaused` test (line 35) and its `currentMode` test (line 43) therefore read the values from that render, and `isPaused` was false there. The mode selector stays enabled while the camera loads (line 171 disables it only while streaming), so the mode can change after the handler is bound. | (1) Start the camera, press Pause, then deliver a frame with 33 landmarks: `totalFrames` still increases by one and the frame's violations are still forwarded. (2) Press Start in desk mode and switch to squat before the camera comes up. Then deliver a frame whose left shoulder is unseen and whose left knee is more than 0.05 past the ankle: nothing is reported and a clean frame is counted, while the summary says squat. | While paused, frames are neither evaluated nor counted, and every frame is evaluated with the currently selected mode. | medium — not executed | Analyzer.OnResultsAsRegistered, Analyzer.PauseIgnoredAsRegistered, Analyzer.ModeSwitchedWhileLoading | Analyzer.OnResults |

=== FILE: analytics.dfy ===
/** Analytics aggregations over the recorded history: the posture score, the
    trend between the last five sessions and the five before them, and the
    24-bucket hour-of-day histogram of violations. */
module Analytics {
  import opened Rounding
  import opened Analyzer
  import opened Dashboard

  // ---------------------------------------------------------------------
  // Posture score and trend
  // ---------------------------------------------------------------------

  /** A window of a history whose accuracies are in range has them in range too. */
  lemma WindowInRange(h: seq<Summary>, lo: int, hi: int)
    requires 0 <= lo <= hi <= |h|
    requires AccuraciesInRange(h)
    ensures AccuraciesInRange(h[lo..hi])
  {
    forall i | 0 <= i < hi - lo
      ensures 0 <= h[lo..hi][i].stats.accuracy <= 100
    {
      assert h[lo..hi][i] == h[lo + i];
    }
  }

  /** `getPostureScore`: 0 for an empty history, otherwise the rounded mean
      accuracy of the last ten sessions. */
  function PostureScore(h: seq<Summary>): (r: int)
    ensures |h| == 0 ==> r == 0
    ensures |h| > 0 ==> r == JsRound(Mean(LastN(h, 10)))
    ensures AccuraciesInRange(h) ==> 0 <= r <= 100
  {
    if |h| == 0 then 0
    else
      var recent := LastN(h, 10);
      if AccuraciesInRange(h) then
        WindowInRange(h, |h| - |recent|, |h|);
        AverageAccuracy(recent)
      else AverageAccuracy(recent)
  }

  /** `analysisHistory.slice(-10, -5)`: the up to five sessions that precede
      the last five. */
  function OlderWindow(h: seq<Summary>): (r: seq<Summary>)
    ensures |h| <= 5 ==> r == []
    ensures |h| > 5 ==> |r| == Min(5, |h| - 5) && r == h[|h| - 5 - |r|..|h| - 5]
  {
    var lo := if |h| >= 10 then |h| - 10 else 0;
    var hi := if |h| >= 5 then |h| - 5 else 0;
    h[lo..hi]
  }

  lemma DiffOfQuotients(a: int, b: int, c: int, d: int)
    requires b > 0 && d > 0
    ensures (a * d - c * b) as real / (b * d) as real == a as real / b as real - c as real / d as real
  {
    var x := a as real / b as real;
    var y := c as real / d as real;
    assert x * b as real == a as real;
    assert y * d as real == c as real;
    assert (x - y) * ((b * d) as real) == (x * b as real) * d as real - (y * d as real) * b as real;
  }

  lemma MulMonotone(a: int, b: int, n: int)
    requires 0 <= a <= b && n >= 0
    ensures a * n <= b * n
  {
    assert b * n - a * n == (b - a) * n;
  }

  /** Window sums of in-range accuracies bound their numerator. */
  lemma {:induction false} TrendNumeratorBounds(recent: seq<Summary>, older: seq<Summary>)
    requires |recent| > 0 && |older| > 0
    requires AccuraciesInRange(recent) && AccuraciesInRange(older)
    ensures var den := |recent| * |older|;
      var num := SumAccuracy(recent) * |older| - SumAccuracy(older) * |recent|;
      den * -100 <= num <= den * 100
  {
    SumAccuracyBounds(recent);
    SumAccuracyBounds(older);
    MulMonotone(SumAccuracy(recent), 100 * |recent|, |older|);
    MulMonotone(SumAccuracy(older), 100 * |older|, |recent|);
    MulMonotone(0, SumAccuracy(recent), |older|);
    MulMonotone(0, SumAccuracy(older), |recent|);
    assert 100 * |recent| * |older| == |recent| * |older| * 100;
    assert 100 * |older| * |recent| == |recent| * |older| * 100;
  }

  /** `getTrend`: 0 unless there are more than five sessions; otherwise the
      rounded difference between the mean accuracy of the last five sessions
      and that of the up to five sessions before them. */
  function Trend(h: seq<Summary>): (r: int)
    ensures |h| <= 5 ==> r == 0
    ensures |h| > 5 ==> r == JsRound(Mean(LastN(h, 5)) - Mean(OlderWindow(h)))
    ensures AccuraciesInRange(h) ==> -100 <= r <= 100
  {
    if |h| < 2 then 0
    else
      var recent := LastN(h, 5);
      var older := OlderWindow(h);
      if |older| == 0 then 0
      else
        var num := SumAccuracy(recent) * |older| - SumAccuracy(older) * |recent|;
        var den := |recent| * |older|;
        RoundDivIsJsRound(num, den);
        DiffOfQuotients(SumAccuracy(recent), |recent|, SumAccuracy(older), |older|);
        if AccuraciesInRange(h) then
          WindowInRange(h, |h| - |recent|, |h|);
          WindowInRange(h, |h| - 5 - |older|, |h| - 5);
          TrendNumeratorBounds(recent, older);
          RoundDivBounds(num, den, -100, 100);
          RoundDiv(num, den)
        else RoundDiv(num, den)
  }

  // ---------------------------------------------------------------------
  // Hour-of-day histogram
  // ---------------------------------------------------------------------

  /** Number of logged violations recorded in hour h. */
  function CountHour(vs: seq<LoggedViolation>, h: int): nat
  {
    if |vs| == 0 then 0
    else CountHour(vs[..|vs| - 1], h) + (if vs[|vs| - 1].hour == h then 1 else 0)
  }

  /** Violations recorded in the hours 0 .. n-1. */
  function HoursTotal(vs: seq<LoggedViolation>, n: nat): nat
  {
    if n == 0 then 0 else HoursTotal(vs, n - 1) + CountHour(vs, n - 1)
  }

  lemma {:induction false} HoursTotalStep(vs: seq<LoggedViolation>, n: nat)
    requires |vs| > 0
    ensures HoursTotal(vs, n) == HoursTotal(vs[..|vs| - 1], n) + (if vs[|vs| - 1].hour < n then 1 else 0)
  {
    if n > 0 {
      HoursTotalStep(vs, n - 1);
    }
  }

  lemma {:induction false} HoursTotalEmpty(vs: seq<LoggedViolation>, n: nat)
    requires |vs| == 0
    ensures HoursTotal(vs, n) == 0
  {
    if n > 0 {
      HoursTotalEmpty(vs, n - 1);
    }
  }

  /** Every violation falls in exactly one of the 24 hours. */
  lemma {:induction false} HoursCoverAll(vs: seq<LoggedViolation>)
    ensures HoursTotal(vs, 24) == |vs|
  {
    if |vs| > 0 {
      HoursTotalStep(vs, 24);
      HoursCoverAll(vs[..|vs| - 1]);
    } else {
      HoursTotalEmpty(vs, 24);
    }
  }

  /** Sum of the buckets 0 .. n-1 of a histogram. */
  function BucketTotal(buckets: map<int, nat>, n: nat): nat
    requires forall h :: 0 <= h < n ==> h in buckets
  {
    if n == 0 then 0 else BucketTotal(buckets, n - 1) + buckets[n - 1]
  }

  lemma {:induction false} BucketTotalIsHoursTotal(buckets: map<int, nat>, vs: seq<LoggedViolation>, n: nat)
    requires forall h :: 0 <= h < n ==> h in buckets && buckets[h] == CountHour(vs, h)
    ensures BucketTotal(buckets, n) == HoursTotal(vs, n)
  {
    if n > 0 {
      BucketTotalIsHoursTotal(buckets, vs, n - 1);
    }
  }

  /** `getHourlyPattern`: 24 buckets, all starting at zero, and one increment
      per violation in the bucket of its hour. */
  method HourlyPattern(vs: seq<LoggedViolation>) returns (buckets: map<int, nat>)
    ensures forall h :: h in buckets <==> 0 <= h < 24
    ensures forall h :: 0 <= h < 24 ==> buckets[h] == CountHour(vs, h)
    ensures BucketTotal(buckets, 24) == |vs|
  {
    buckets := map[];
    var h := 0;
    while h < 24
      invariant 0 <= h <= 24
      invariant forall j :: j in buckets <==> 0 <= j < h
      invariant forall j :: 0 <= j < h ==> buckets[j] == 0
    {
      buckets := buckets[h := 0];
      h := h + 1;
    }
    var i := 0;
    while i < |vs|
      invariant 0 <= i <= |vs|
      invariant forall j :: j in buckets <==> 0 <= j < 24
      invariant forall j :: 0 <= j < 24 ==> buckets[j] == CountHour(vs[..i], j)
    {
      var hour := vs[i].hour;
      assert vs[..i + 1][..i] == vs[..i];
      buckets := buckets[hour := buckets[hour] + 1];
      i := i + 1;
    }
    assert vs[..i] == vs;
    BucketTotalIsHoursTotal(buckets, vs, 24);
    HoursCoverAll(vs);
  }
}

=== FILE: analyzer.dfy ===
/** The live-analysis controller: per-frame pipeline (extract, dispatch on the
    mode, evaluate the rules, update the statistics, forward the violations)
    and the camera / pause / mode / end-of-session controls around it. */
module Analyzer {
  import opened Wrappers
  import opened Geometry
  import opened Keypoints
  import opened Rules
  import opened Session

  /** The controller's state: selected mode, camera-start, camera and pause
      flags, the violations of the last analysed frame, and the session
      statistics. */
  datatype State = State(
    mode: Mode,
    loading: bool,
    streaming: bool,
    paused: bool,
    current: seq<Violation>,
    stats: Stats)

  /** The state when the component is first shown. */
  const Fresh: State := State(Desk, false, false, false, [], Initial)

  /** What the pose model delivers for one camera frame. */
  datatype Results = Results(poseLandmarks: Option<seq<Landmark>>)

  /** The next state and the violations forwarded to the listener, in order. */
  datatype Step = Step(state: State, reported: seq<Violation>)

  /** The summary handed to the history when a session ends. */
  datatype Summary = Summary(mode: Mode, stats: Stats, duration: nat, violations: nat)

  /** State properties every control preserves. */
  predicate Inv(s: State)
  {
    Valid(s.stats) && (s.paused ==> s.streaming) && (s.loading ==> !s.streaming)
  }

  /** The component starts out in a state that keeps the invariant. */
  lemma FreshSatisfiesInv()
    ensures Inv(Fresh)
  {
  }

  /** A frame reaches the rules (and is counted) exactly when analysis is not
      paused and the pose model delivered a full landmark list. */
  predicate Counted(s: State, results: Option<Results>)
  {
    && !s.paused
    && results.Some?
    && results.value.poseLandmarks.Some?
    && |results.value.poseLandmarks.value| >= LandmarkCount
  }

  /** `onResults`, reading the live pause flag and mode. */
  function OnResults(atan: Atan2Deg, s: State, results: Option<Results>): (r: Step)
    ensures !Counted(s, results) ==> r == Step(s, [])
    ensures Counted(s, results) ==>
      && r.reported == Evaluate(atan, s.mode, Extract(results.value.poseLandmarks).value)
      && r.state == s.(current := r.reported, stats := Record(s.stats, |r.reported| > 0))
    ensures r.state.stats.totalFrames == s.stats.totalFrames + (if Counted(s, results) then 1 else 0)
    ensures r.state.stats.violationFrames
         == s.stats.violationFrames + (if Counted(s, results) && |r.reported| > 0 then 1 else 0)
    ensures Inv(s) ==> Inv(r.state)
  {
    if s.paused || results.None? then Step(s, [])
    else
      var landmarks := results.value.poseLandmarks;
      if landmarks.Some? && |landmarks.value| > 0 then
        match Extract(landmarks)
        case None => Step(s, [])
        case Some(k) =>
          var vs := Evaluate(atan, s.mode, k);
          Step(s.(current := vs, stats := Record(s.stats, |vs| > 0)), vs)
      else Step(s, [])
  }

  /** The first half of `startCamera`, up to the `await` of the camera: the
      handler is bound and `isLoading` is set.  The Start button is shown
      only while the camera is off and is disabled while loading. */
  function StartCamera(s: State): (r: State)
    ensures !s.streaming && !s.loading ==> r == s.(loading := true)
    ensures s.streaming || s.loading ==> r == s
    ensures Inv(s) ==> Inv(r)
  {
    if s.streaming || s.loading then s else s.(loading := true)
  }

  /** The second half of `startCamera`, once the camera `await` settles:
      streaming starts if the camera and pose model came up (decided outside
      the model, arriving as `cameraUp`), and loading ends either way. */
  function CameraReady(s: State, cameraUp: bool): (r: State)
    ensures s.loading ==> r == s.(loading := false, streaming := s.streaming || cameraUp)
    ensures !s.loading ==> r == s
    ensures Inv(s) ==> Inv(r)
  {
    if s.loading then s.(loading := false, streaming := s.streaming || cameraUp) else s
  }

  /** `stopCamera`: clears the shown violations and the pause flag, keeps the statistics. */
  function StopCamera(s: State): (r: State)
    ensures !r.streaming && !r.paused && r.current == []
    ensures r.stats == s.stats && r.mode == s.mode && r.loading == s.loading
    ensures Inv(s) ==> Inv(r)
  {
    s.(streaming := false, paused := false, current := [])
  }

  /** The pause / resume button, shown only while streaming. */
  function TogglePause(s: State): (r: State)
    ensures s.streaming ==> r.paused == !s.paused
    ensures !s.streaming ==> r == s
    ensures r.stats == s.stats && r.mode == s.mode && r.streaming == s.streaming
    ensures r.current == s.current && r.loading == s.loading
    ensures Inv(s) ==> Inv(r)
  {
    if s.streaming then s.(paused := !s.paused) else s
  }

  /** The mode selector, disabled while streaming (but not while loading). */
  function SelectMode(s: State, m: Mode): (r: State)
    ensures r.mode == (if s.streaming then s.mode else m)
    ensures r.(mode := s.mode) == s
    ensures Inv(s) ==> Inv(r)
  {
    if s.streaming then s else s.(mode := m)
  }

  /** `endSession`: the summary of the session so far, and the statistics reset. */
  function EndSession(s: State): (r: (Summary, State))
    ensures r.0.mode == s.mode && r.0.stats == s.stats && r.0.violations == |s.current|
    ensures r.0.duration * 10 <= s.stats.totalFrames < (r.0.duration + 1) * 10
    ensures r.1 == s.(stats := Initial)
    ensures Inv(s) ==> Inv(r.1)
  {
    (Summary(s.mode, s.stats, s.stats.totalFrames / 10, |s.current|), s.(stats := Initial))
  }

  /** Ending a session twice leaves the same state as ending it once. */
  lemma EndSessionIdempotent(s: State)
    ensures EndSession(EndSession(s).1).1 == EndSession(s).1
  {
  }

  /** The inputs the controller reacts to.  Each button event applies only
      where the button is shown and enabled: Start while neither streaming
      nor loading, Pause, Stop and End while streaming, the mode choice
      while not streaming.  A `Frame` is accepted in every state, although
      the program only receives frames while a pose detector is open (from
      the Start click until Stop); allowing more frames only strengthens the
      lemmas proved over event sequences below. */
  datatype Event =
    | Frame(results: Option<Results>)
    | Start
    | Ready(cameraUp: bool)
    | Stop
    | Pause
    | Choose(mode: Mode)
    | End

  function Apply(atan: Atan2Deg, s: State, e: Event): State
  {
    match e
    case Frame(results) => OnResults(atan, s, results).state
    case Start => StartCamera(s)
    case Ready(cameraUp) => CameraReady(s, cameraUp)
    case Stop => if s.streaming then StopCamera(s) else s
    case Pause => TogglePause(s)
    case Choose(m) => SelectMode(s, m)
    case End => if s.streaming then EndSession(s).1 else s
  }

  function Run(atan: Atan2Deg, s: State, events: seq<Event>): State
    decreases |events|
  {
    if |events| == 0 then s else Run(atan, Apply(atan, s, events[0]), events[1..])
  }

  /** Every reachable state of the controller with the live-flag handler
      `OnResults` keeps the invariant. */
  lemma {:induction false} RunPreservesInv(atan: Atan2Deg, s: State, events: seq<Event>)
    requires Inv(s)
    ensures Inv(Run(atan, s, events))
    decreases |events|
  {
    if |events| > 0 {
      var e := events[0];
      var s' := Apply(atan, s, e);
      assert Inv(s') by {
        match e
        case Frame(results) =>
        case Start =>
        case Ready(cameraUp) =>
        case Stop =>
        case Pause =>
        case Choose(m) =>
        case End =>
      }
      RunPreservesInv(atan, s', events[1..]);
    }
  }

  /** With the live-flag handler, while the camera streams, nothing short of
      stopping it changes the mode or ends the streaming. */
  lemma {:induction false} ModeFixedWhileStreaming(atan: Atan2Deg, s: State, events: seq<Event>)
    requires s.streaming
    requires forall i :: 0 <= i < |events| ==> !events[i].Stop?
    ensures Run(atan, s, events).mode == s.mode
    ensures Run(atan, s, events).streaming
    decreases |events|
  {
    if |events| > 0 {
      var s' := Apply(atan, s, events[0]);
      assert s'.mode == s.mode && s'.streaming;
      ModeFixedWhileStreaming(atan, s', events[1..]);
    }
  }

  // ---------------------------------------------------------------------
  // The handler as registered with the pose model
  // ---------------------------------------------------------------------

  /** `onResults` as the pose model actually calls it.  The handler is the
      closure created in the render in which `startCamera` ran
      (`startedIn`), so it reads that render's `isPaused` and `currentMode`;
      the statistics and shown violations go through state setters and are
      live. */
  function OnResultsAsRegistered(atan: Atan2Deg, startedIn: State, s: State, results: Option<Results>): (r: Step)
    ensures !Counted(s.(paused := startedIn.paused), results) ==> r == Step(s, [])
    ensures Counted(s.(paused := startedIn.paused), results) ==>
      && r.reported == Evaluate(atan, startedIn.mode, Extract(results.value.poseLandmarks).value)
      && r.state == s.(current := r.reported, stats := Record(s.stats, |r.reported| > 0))
    ensures r.state.stats.totalFrames
         == s.stats.totalFrames + (if Counted(s.(paused := startedIn.paused), results) then 1 else 0)
  {
    var seen := OnResults(atan, s.(paused := startedIn.paused, mode := startedIn.mode), results);
    Step(seen.state.(paused := s.paused, mode := s.mode), seen.reported)
  }

  /** Pausing does not stop the registered handler: after starting the camera
      and pressing pause, a full frame is still analysed and counted, whereas
      the live-flag handler leaves the state alone. */
  lemma PauseIgnoredAsRegistered(atan: Atan2Deg, s0: State, landmarks: seq<Landmark>)
    requires !s0.streaming && !s0.loading && !s0.paused
    requires |landmarks| >= LandmarkCount
    ensures var paused := TogglePause(CameraReady(StartCamera(s0), true));
      && paused.paused
      && OnResultsAsRegistered(atan, s0, paused, Some(Results(Some(landmarks)))).state.stats.totalFrames
         == paused.stats.totalFrames + 1
      && OnResults(atan, paused, Some(Results(Some(landmarks)))).state == paused
  {
  }

  /** The mode selector stays enabled while the camera is loading, after the
      handler was bound: switching from desk to squat then leaves the
      registered handler evaluating the desk rules, while the controller and
      the session summary say squat.  A frame with the left shoulder unseen
      and the left knee well past the ankle is a squat violation, yet the
      registered handler reports nothing and counts a clean frame. */
  lemma ModeSwitchedWhileLoading(atan: Atan2Deg, s0: State, landmarks: seq<Landmark>)
    requires !s0.streaming && !s0.loading && !s0.paused && s0.mode == Desk
    requires |landmarks| >= LandmarkCount
    requires var k := Extract(Some(landmarks)).value;
      && !Visible(k.leftShoulder) && Visible(k.leftKnee) && Visible(k.leftAnkle)
      && KneeOffsetOf(k) > 0.05
    ensures var up := CameraReady(SelectMode(StartCamera(s0), Squat), true);
      var frame := Some(Results(Some(landmarks)));
      var registered := OnResultsAsRegistered(atan, s0, up, frame);
      && up.streaming && up.mode == Squat
      && registered.reported == []
      && registered.state.stats.totalFrames == up.stats.totalFrames + 1
      && registered.state.stats.violationFrames == up.stats.violationFrames
      && |OnResults(atan, up, frame).reported| > 0
      && EndSession(registered.state).0.mode == Squat
  {
    var k := Extract(Some(landmarks)).value;
    DeskSilentWithoutLeftShoulder(atan, k);
    KneeOverToeBoundary(atan, k);
  }

  /** One event of the program as written: the handler in use is the one
      bound at the last acting Start click, so `bound` is the state of that
      render.  Every other event acts as in `Apply`.  Returns the new bound
      state and the new controller state. */
  function ApplyAsWritten(atan: Atan2Deg, bound: State, s: State, e: Event): (State, State)
  {
    match e
    case Frame(results) => (bound, OnResultsAsRegistered(atan, bound, s, results).state)
    case Start => if s.streaming || s.loading then (bound, s) else (s, StartCamera(s))
    case _ => (bound, Apply(atan, s, e))
  }

  function RunAsWritten(atan: Atan2Deg, bound: State, s: State, events: seq<Event>): State
    decreases |events|
  {
    if |events| == 0 then s
    else
      var next := ApplyAsWritten(atan, bound, s, events[0]);
      RunAsWritten(atan, next.0, next.1, events[1..])
  }

  /** The program as written keeps the invariant too: the stale flags decide
      which frames are counted and which rules run, but every count still
      goes through `Record`. */
  lemma {:induction false} RunAsWrittenPreservesInv(atan: Atan2Deg, bound: State, s: State, events: seq<Event>)
    requires Inv(s)
    ensures Inv(RunAsWritten(atan, bound, s, events))
    decreases |events|
  {
    if |events| > 0 {
      var e := events[0];
      var next := ApplyAsWritten(atan, bound, s, e);
      assert Inv(next.1) by {
        match e
        case Frame(results) =>
        case Start =>
        case Ready(cameraUp) =>
        case Stop =>
        case Pause =>
        case Choose(m) =>
        case End =>
      }
      RunAsWrittenPreservesInv(atan, next.0, next.1, events[1..]);
    }
  }

  /** In the program as written, too, only stopping the camera can change the
      mode or end the streaming once it streams. */
  lemma {:induction false} ModeFixedWhileStreamingAsWritten(atan: Atan2Deg, bound: State, s: State, events: seq<Event>)
    requires s.streaming
    requires forall i :: 0 <= i < |events| ==> !events[i].Stop?
    ensures RunAsWritten(atan, bound, s, events).mode == s.mode
    ensures RunAsWritten(atan, bound, s, events).streaming
    decreases |events|
  {
    if |events| > 0 {
      var next := ApplyAsWritten(atan, bound, s, events[0]);
      assert next.1.mode == s.mode && next.1.streaming;
      ModeFixedWhileStreamingAsWritten(atan, next.0, next.1, events[1..]);
    }
  }

  /** Stopping the camera does not end the session: after Stop, a switch from
      desk to squat and a restart, the desk frames are still in the
      statistics, and the next summary labels all of them squat. */
  lemma ModeChangesMidSession(atan: Atan2Deg, s: State)
    requires s.streaming && s.mode == Desk && s.stats.totalFrames > 0
    ensures var r := Run(atan, s, [Stop, Choose(Squat), Start, Ready(true)]);
      && r.streaming && r.mode == Squat && r.stats == s.stats
      && EndSession(r).0.mode == Squat
      && EndSession(r).0.stats.totalFrames == s.stats.totalFrames
  {
  }
}

=== FILE: dashboard.dfy ===
/** Dashboard aggregations over the recorded history: violation counts per
    type, recent sessions, mean accuracy, recent violations and the accuracy
    colour band.  Timestamps are abstracted: a logged violation keeps only
    the hour of day at which it was recorded. */
module Dashboard {
  import opened Rounding
  import opened Rules
  import opened Analyzer

  /** Hour of day, as `Date.getHours` returns it. */
  type Hour = h: int | 0 <= h < 24

  /** A forwarded violation as the history keeps it. */
  datatype LoggedViolation = LoggedViolation(violation: Violation, hour: Hour)

  function Min(a: int, b: int): int
  {
    if a <= b then a else b
  }

  // ---------------------------------------------------------------------
  // Windows: `slice(-n)` and `reverse()`
  // ---------------------------------------------------------------------

  /** `s.slice(-n)` for n > 0: the last n elements, or all of them. */
  function LastN<T>(s: seq<T>, n: nat): (r: seq<T>)
    requires n > 0
    ensures |r| == Min(n, |s|)
    ensures r == s[|s| - |r|..]
  {
    if |s| <= n then s else s[|s| - n..]
  }

  function Reverse<T>(s: seq<T>): (r: seq<T>)
    ensures |r| == |s|
    ensures forall i :: 0 <= i < |s| ==> r[i] == s[|s| - 1 - i]
  {
    if |s| == 0 then [] else Reverse(s[1..]) + [s[0]]
  }

  /** `getRecentSessions`: the last five sessions, newest first. */
  function RecentSessions(history: seq<Summary>): (r: seq<Summary>)
    ensures |r| == Min(5, |history|)
    ensures forall i :: 0 <= i < |r| ==> r[i] == history[|history| - 1 - i]
  {
    Reverse(LastN(history, 5))
  }

  /** The "Recent Violations" list: the last ten violations, newest first. */
  function RecentViolations(vs: seq<LoggedViolation>): (r: seq<LoggedViolation>)
    ensures |r| == Min(10, |vs|)
    ensures forall i :: 0 <= i < |r| ==> r[i] == vs[|vs| - 1 - i]
  {
    Reverse(LastN(vs, 10))
  }

  // ---------------------------------------------------------------------
  // Accuracy
  // ---------------------------------------------------------------------

  /** Sum of the sessions' accuracies (the `reduce`). */
  function SumAccuracy(h: seq<Summary>): int
  {
    if |h| == 0 then 0 else SumAccuracy(h[..|h| - 1]) + h[|h| - 1].stats.accuracy
  }

  /** Mean accuracy as an exact real. */
  function Mean(h: seq<Summary>): real
    requires |h| > 0
  {
    SumAccuracy(h) as real / |h| as real
  }

  predicate AccuraciesInRange(h: seq<Summary>)
  {
    forall i :: 0 <= i < |h| ==> 0 <= h[i].stats.accuracy <= 100
  }

  lemma {:induction false} SumAccuracyBounds(h: seq<Summary>)
    requires AccuraciesInRange(h)
    ensures 0 <= SumAccuracy(h) <= 100 * |h|
  {
    if |h| > 0 {
      SumAccuracyBounds(h[..|h| - 1]);
    }
  }

  /** The dashboard's average accuracy: 0 for an empty history, otherwise the
      mean accuracy rounded as `Math.round` rounds. */
  function AverageAccuracy(h: seq<Summary>): (r: int)
    ensures |h| == 0 ==> r == 0
    ensures |h| > 0 ==> r == JsRound(Mean(h))
    ensures AccuraciesInRange(h) ==> 0 <= r <= 100
  {
    if |h| > 0 then
      RoundDivIsJsRound(SumAccuracy(h), |h|);
      if AccuraciesInRange(h) then
        SumAccuracyBounds(h);
        RoundDivBounds(SumAccuracy(h), |h|, 0, 100);
        RoundDiv(SumAccuracy(h), |h|)
      else RoundDiv(SumAccuracy(h), |h|)
    else 0
  }

  datatype Band = Green | Yellow | Red

  /** Colour of a session's accuracy dot. */
  function AccuracyBand(accuracy: int): (b: Band)
    ensures b == Green <==> accuracy > 90
    ensures b == Yellow <==> 70 < accuracy <= 90
    ensures b == Red <==> accuracy <= 70
  {
    if accuracy > 90 then Green else if accuracy > 70 then Yellow else Red
  }

  // ---------------------------------------------------------------------
  // Violations by type
  // ---------------------------------------------------------------------

  /** Number of logged violations of a kind. */
  function CountKind(vs: seq<LoggedViolation>, kind: ViolationKind): nat
  {
    if |vs| == 0 then 0
    else CountKind(vs[..|vs| - 1], kind) + (if vs[|vs| - 1].violation.kind == kind then 1 else 0)
  }

  lemma {:induction false} CountKindPositive(vs: seq<LoggedViolation>, kind: ViolationKind)
    ensures CountKind(vs, kind) > 0 <==> exists i :: 0 <= i < |vs| && vs[i].violation.kind == kind
  {
    if |vs| > 0 {
      var init := vs[..|vs| - 1];
      CountKindPositive(init, kind);
      if CountKind(init, kind) > 0 {
        var i :| 0 <= i < |init| && init[i].violation.kind == kind;
        assert vs[i] == init[i];
      }
      if exists i :: 0 <= i < |vs| && vs[i].violation.kind == kind {
        var i :| 0 <= i < |vs| && vs[i].violation.kind == kind;
        if i < |init| {
          assert init[i] == vs[i];
        }
      }
    }
  }

  const AllKinds: seq<ViolationKind> := [NeckAngle, BackSlouch, KneeOverToe, BackAngle, SquatDepth]

  /** Sum of the counts of the given kinds in a map (absent kinds count 0). */
  function TotalOf(counts: map<ViolationKind, nat>, kinds: seq<ViolationKind>): nat
  {
    if |kinds| == 0 then 0
    else (if kinds[0] in counts then counts[kinds[0]] else 0) + TotalOf(counts, kinds[1..])
  }

  /** Sum of the per-kind counts of the given kinds. */
  function CountKinds(vs: seq<LoggedViolation>, kinds: seq<ViolationKind>): nat
  {
    if |kinds| == 0 then 0 else CountKind(vs, kinds[0]) + CountKinds(vs, kinds[1..])
  }

  lemma {:induction false} CountKindsStep(vs: seq<LoggedViolation>, kinds: seq<ViolationKind>)
    requires |vs| > 0
    requires forall i, j :: 0 <= i < j < |kinds| ==> kinds[i] != kinds[j]
    ensures CountKinds(vs, kinds)
         == CountKinds(vs[..|vs| - 1], kinds) + (if vs[|vs| - 1].violation.kind in kinds then 1 else 0)
  {
    if |kinds| > 0 {
      CountKindsStep(vs, kinds[1..]);
      var last := vs[|vs| - 1].violation.kind;
      assert last in kinds <==> last == kinds[0] || last in kinds[1..];
      assert last == kinds[0] ==> last !in kinds[1..];
    }
  }

  lemma {:induction false} NoKindsCounted(vs: seq<LoggedViolation>, kinds: seq<ViolationKind>)
    requires |vs| == 0
    ensures CountKinds(vs, kinds) == 0
  {
    if |kinds| > 0 {
      NoKindsCounted(vs, kinds[1..]);
    }
  }

  /** Every violation has exactly one kind, so the per-kind counts add up to
      the number of violations. */
  lemma {:induction false} CountsAddUp(vs: seq<LoggedViolation>)
    ensures CountKinds(vs, AllKinds) == |vs|
  {
    if |vs| > 0 {
      CountKindsStep(vs, AllKinds);
      assert vs[|vs| - 1].violation.kind in AllKinds;
      CountsAddUp(vs[..|vs| - 1]);
    } else {
      NoKindsCounted(vs, AllKinds);
    }
  }

  lemma {:induction false} TotalOfCounts(counts: map<ViolationKind, nat>, vs: seq<LoggedViolation>, kinds: seq<ViolationKind>)
    requires forall kind :: kind in counts ==> counts[kind] == CountKind(vs, kind)
    requires forall kind :: kind !in counts ==> CountKind(vs, kind) == 0
    ensures TotalOf(counts, kinds) == CountKinds(vs, kinds)
  {
    if |kinds| > 0 {
      TotalOfCounts(counts, vs, kinds[1..]);
    }
  }

  /** `getViolationsByType`: the `forEach` over the violations, bumping the
      count of each violation's type; the counts after the last violation
      extend those after the ones before it. */
  function ViolationsByType(vs: seq<LoggedViolation>): (counts: map<ViolationKind, nat>)
    ensures forall kind :: kind in counts <==> exists i :: 0 <= i < |vs| && vs[i].violation.kind == kind
    ensures forall kind :: kind in counts ==> counts[kind] == CountKind(vs, kind) >= 1
    ensures TotalOf(counts, AllKinds) == |vs|
    decreases |vs|
  {
    if |vs| == 0 then map[]
    else
      var previous := ViolationsByType(vs[..|vs| - 1]);
      var kind := vs[|vs| - 1].violation.kind;
      var counts := previous[kind := (if kind in previous then previous[kind] else 0) + 1];
      assert forall k :: (k in counts <==> CountKind(vs, k) > 0) && (k in counts ==> counts[k] == CountKind(vs, k)) by {
        forall k
          ensures k in counts <==> CountKind(vs, k) > 0
          ensures k in counts ==> counts[k] == CountKind(vs, k)
        {
          CountKindPositive(vs[..|vs| - 1], k);
        }
      }
      assert forall k :: k in counts <==> exists i :: 0 <= i < |vs| && vs[i].violation.kind == k by {
        forall k
          ensures k in counts <==> exists i :: 0 <= i < |vs| && vs[i].violation.kind == k
        {
          CountKindPositive(vs, k);
        }
      }
      TotalOfCounts(counts, vs, AllKinds);
      CountsAddUp(vs);
      counts
  }
}

=== FILE: geometry.dfy ===
/** Landmarks and the plane geometry the posture rules measure with.

    `Math.atan2` followed by the conversion to degrees is not computed here:
    every measurement takes it as a parameter of type `Atan2Deg`, any function
    whose values lie in (-180, 180].  Over exact reals,
    `(atan2(a) - atan2(b)) * 180 / PI` equals `atanDeg(a) - atanDeg(b)`, which
    is how the angle below is written.
 */
module Geometry {

  /** One detected body joint: normalised position and detection confidence. */
  datatype Landmark = Landmark(x: real, y: real, z: real, visibility: real)

  /** The `{x, y}` view of a landmark that the angle helpers take. */
  datatype Point = Point(x: real, y: real)

  function Pos(l: Landmark): Point
  {
    Point(l.x, l.y)
  }

  /** `atan2(y, x)` in degrees: any function with values in (-180, 180]. */
  type Atan2Deg = f: (real, real) -> real
    | forall y, x :: -180.0 < f(y, x) <= 180.0
    witness (y: real, x: real) => 0.0

  function Abs(v: real): real
  {
    if v < 0.0 then -v else v
  }

  /** Signed difference of the directions of rays p2->p3 and p2->p1, in degrees. */
  function Turn(atan: Atan2Deg, p1: Point, p2: Point, p3: Point): (d: real)
    ensures -360.0 < d < 360.0
  {
    atan(p3.y - p2.y, p3.x - p2.x) - atan(p1.y - p2.y, p1.x - p2.x)
  }

  /** Unsigned interior angle at vertex p2 between rays to p1 and p3: the
      smaller of the two arcs between the two directions. */
  function Angle(atan: Atan2Deg, p1: Point, p2: Point, p3: Point): (r: real)
    ensures 0.0 <= r <= 180.0
    ensures r == Abs(Turn(atan, p1, p2, p3)) || r == 360.0 - Abs(Turn(atan, p1, p2, p3))
    ensures r <= Abs(Turn(atan, p1, p2, p3)) && r <= 360.0 - Abs(Turn(atan, p1, p2, p3))
  {
    var a := Abs(Turn(atan, p1, p2, p3));
    if a > 180.0 then 360.0 - a else a
  }

  /** The angle does not depend on which outer point comes first. */
  lemma AngleSymmetric(atan: Atan2Deg, p1: Point, p2: Point, p3: Point)
    ensures Angle(atan, p1, p2, p3) == Angle(atan, p3, p2, p1)
  {
    assert Turn(atan, p3, p2, p1) == -Turn(atan, p1, p2, p3);
  }

  /** Two coincident outer points make a zero angle. */
  lemma AngleOfCoincidentPoints(atan: Atan2Deg, p: Point, vertex: Point)
    ensures Angle(atan, p, vertex, p) == 0.0
  {
  }

  /** Componentwise average of two points. */
  function Midpoint(p: Point, q: Point): (m: Point)
    ensures m.x - p.x == q.x - m.x && m.y - p.y == q.y - m.y
  {
    Point((p.x + q.x) / 2.0, (p.y + q.y) / 2.0)
  }

  /** Signed direction, in degrees, of the segment from `base` to `top`. */
  function Tilt(atan: Atan2Deg, top: Point, base: Point): (t: real)
    ensures -180.0 < t <= 180.0
  {
    atan(top.y - base.y, top.x - base.x)
  }
}

=== FILE: keypoints.dfy ===
/** Projection of the pose model's 33 landmarks onto the 15 named keypoints
    the posture rules read (MediaPipe Pose topology). */
module Keypoints {
  import opened Wrappers
  import opened Geometry

  datatype Keypoints = Keypoints(
    nose: Landmark,
    leftShoulder: Landmark, rightShoulder: Landmark,
    leftElbow: Landmark, rightElbow: Landmark,
    leftWrist: Landmark, rightWrist: Landmark,
    leftHip: Landmark, rightHip: Landmark,
    leftKnee: Landmark, rightKnee: Landmark,
    leftAnkle: Landmark, rightAnkle: Landmark,
    leftEar: Landmark, rightEar: Landmark)

  /** The named body parts, one per keypoint field. */
  datatype BodyPart =
    | Nose | LeftEar | RightEar
    | LeftShoulder | RightShoulder | LeftElbow | RightElbow | LeftWrist | RightWrist
    | LeftHip | RightHip | LeftKnee | RightKnee | LeftAnkle | RightAnkle

  /** Number of landmarks the pose model reports per frame. */
  const LandmarkCount: nat := 33

  /** Index of each body part in the pose model's landmark list. */
  function IndexOf(p: BodyPart): (i: nat)
    ensures i < LandmarkCount
  {
    match p
    case Nose => 0
    case LeftEar => 7
    case RightEar => 8
    case LeftShoulder => 11
    case RightShoulder => 12
    case LeftElbow => 13
    case RightElbow => 14
    case LeftWrist => 15
    case RightWrist => 16
    case LeftHip => 23
    case RightHip => 24
    case LeftKnee => 25
    case RightKnee => 26
    case LeftAnkle => 27
    case RightAnkle => 28
  }

  /** The keypoint field of a body part. */
  function Part(k: Keypoints, p: BodyPart): Landmark
  {
    match p
    case Nose => k.nose
    case LeftEar => k.leftEar
    case RightEar => k.rightEar
    case LeftShoulder => k.leftShoulder
    case RightShoulder => k.rightShoulder
    case LeftElbow => k.leftElbow
    case RightElbow => k.rightElbow
    case LeftWrist => k.leftWrist
    case RightWrist => k.rightWrist
    case LeftHip => k.leftHip
    case RightHip => k.rightHip
    case LeftKnee => k.leftKnee
    case RightKnee => k.rightKnee
    case LeftAnkle => k.leftAnkle
    case RightAnkle => k.rightAnkle
  }

  /** `extractKeypoints`: `None` for a missing or short list, otherwise every
      named part read from its fixed index. */
  function Extract(landmarks: Option<seq<Landmark>>): (r: Option<Keypoints>)
    ensures r.None? <==> landmarks.None? || |landmarks.value| < LandmarkCount
    ensures r.Some? ==> forall p :: Part(r.value, p) == landmarks.value[IndexOf(p)]
  {
    if landmarks.None? || |landmarks.value| < 33 then None
    else
      var ls := landmarks.value;
      Some(Keypoints(
        nose := ls[0],
        leftShoulder := ls[11], rightShoulder := ls[12],
        leftElbow := ls[13], rightElbow := ls[14],
        leftWrist := ls[15], rightWrist := ls[16],
        leftHip := ls[23], rightHip := ls[24],
        leftKnee := ls[25], rightKnee := ls[26],
        leftAnkle := ls[27], rightAnkle := ls[28],
        leftEar := ls[7], rightEar := ls[8]))
  }

  /** Keypoints are determined by their parts. */
  lemma {:induction false} PartsDetermineKeypoints(k: Keypoints, k': Keypoints)
    requires forall p :: Part(k, p) == Part(k', p)
    ensures k == k'
  {
    assert Part(k, Nose) == Part(k', Nose);
    assert Part(k, LeftEar) == Part(k', LeftEar);
    assert Part(k, RightEar) == Part(k', RightEar);
    assert Part(k, LeftShoulder) == Part(k', LeftShoulder);
    assert Part(k, RightShoulder) == Part(k', RightShoulder);
    assert Part(k, LeftElbow) == Part(k', LeftElbow);
    assert Part(k, RightElbow) == Part(k', RightElbow);
    assert Part(k, LeftWrist) == Part(k', LeftWrist);
    assert Part(k, RightWrist) == Part(k', RightWrist);
    assert Part(k, LeftHip) == Part(k', LeftHip);
    assert Part(k, RightHip) == Part(k', RightHip);
    assert Part(k, LeftKnee) == Part(k', LeftKnee);
    assert Part(k, RightKnee) == Part(k', RightKnee);
    assert Part(k, LeftAnkle) == Part(k', LeftAnkle);
    assert Part(k, RightAnkle) == Part(k', RightAnkle);
  }

  /** Extraction reads only the table's indices: lists that agree there give
      the same keypoints. */
  lemma {:induction false} ExtractReadsOnlyTable(ls: seq<Landmark>, ls': seq<Landmark>)
    requires |ls| >= LandmarkCount && |ls'| >= LandmarkCount
    requires forall p :: ls[IndexOf(p)] == ls'[IndexOf(p)]
    ensures Extract(Some(ls)) == Extract(Some(ls'))
  {
    var k := Extract(Some(ls)).value;
    var k' := Extract(Some(ls')).value;
    PartsDetermineKeypoints(k, k');
  }

  /** Some body part sits at index i, if any. */
  function PartAt(k: Keypoints, i: int, filler: Landmark): Landmark
  {
    if i == 0 then k.nose
    else if i == 7 then k.leftEar
    else if i == 8 then k.rightEar
    else if i == 11 then k.leftShoulder
    else if i == 12 then k.rightShoulder
    else if i == 13 then k.leftElbow
    else if i == 14 then k.rightElbow
    else if i == 15 then k.leftWrist
    else if i == 16 then k.rightWrist
    else if i == 23 then k.leftHip
    else if i == 24 then k.rightHip
    else if i == 25 then k.leftKnee
    else if i == 26 then k.rightKnee
    else if i == 27 then k.leftAnkle
    else if i == 28 then k.rightAnkle
    else filler
  }

  /** A full 33-landmark list carrying the given keypoints at their indices
      and `filler` everywhere else. */
  function Embed(k: Keypoints, filler: Landmark): (ls: seq<Landmark>)
    ensures |ls| == LandmarkCount
  {
    seq(33, i => PartAt(k, i, filler))
  }

  /** Extraction inverts embedding: no part is lost or moved. */
  lemma {:induction false} ExtractEmbed(k: Keypoints, filler: Landmark)
    ensures Extract(Some(Embed(k, filler))) == Some(k)
  {
    var r := Extract(Some(Embed(k, filler))).value;
    PartsDetermineKeypoints(r, k);
  }
}

=== FILE: rounding.dfy ===
/** JavaScript's `Math.round`, stated over exact numbers.

    The program rounds ratios of integers (an accuracy percentage, a mean of
    accuracies, a difference of two means).  `JsRound` is the reference
    meaning of `Math.round` on an exact real: the nearest integer, with halves
    going towards positive infinity.  `RoundDiv` is the integer formula the
    model computes with; `RoundDivIsJsRound` shows the two agree.
 */
module Rounding {

  /** `Math.round(x)` for an exact real `x`: floor of `x + 1/2`. */
  function JsRound(x: real): (r: int)
    ensures r as real - 0.5 <= x < r as real + 0.5
  {
    (x + 0.5).Floor
  }

  /** `Math.round(num / den)` computed with integer floor division. */
  function RoundDiv(num: int, den: int): (r: int)
    requires den > 0
    ensures den * (2 * r - 1) <= 2 * num < den * (2 * r + 1)
  {
    var q := (2 * num + den) / (2 * den);
    var m := (2 * num + den) % (2 * den);
    assert 2 * num + den == 2 * den * q + m;
    assert 2 * den * q == den * (2 * q);
    q
  }

  lemma MulStrictCancel(d: int, a: int, b: int)
    requires d > 0
    requires d * a < d * b
    ensures a < b
  {
  }

  /** The lower half of the rounding bounds, scaled by 2d. */
  lemma ScaleLower(n: real, d: real, x: real, r: real)
    requires d > 0.0
    requires x * d == n
    requires r - 0.5 <= x
    ensures d * (2.0 * r - 1.0) <= 2.0 * n
  {
    var y := x - (r - 0.5);
    MulNonneg(y, d);
    assert 2.0 * n - d * (2.0 * r - 1.0) == 2.0 * (y * d);
  }

  /** The upper half of the rounding bounds, scaled by 2d. */
  lemma ScaleUpper(n: real, d: real, x: real, r: real)
    requires d > 0.0
    requires x * d == n
    requires x < r + 0.5
    ensures 2.0 * n < d * (2.0 * r + 1.0)
  {
    var z := (r + 0.5) - x;
    MulPos(z, d);
    assert d * (2.0 * r + 1.0) - 2.0 * n == 2.0 * (z * d);
  }

  /** r - 1/2 <= n/d < r + 1/2 scaled by 2d. */
  lemma ScaleRoundingBounds(n: real, d: real, x: real, r: real)
    requires d > 0.0
    requires x * d == n
    requires r - 0.5 <= x < r + 0.5
    ensures d * (2.0 * r - 1.0) <= 2.0 * n < d * (2.0 * r + 1.0)
  {
    ScaleLower(n, d, x, r);
    ScaleUpper(n, d, x, r);
  }

  lemma MulNonneg(a: real, b: real)
    requires a >= 0.0 && b > 0.0
    ensures a * b >= 0.0
  {
  }

  lemma MulPos(a: real, b: real)
    requires a > 0.0 && b > 0.0
    ensures a * b > 0.0
  {
  }

  /** The rounding bounds determine the rounded value: there is one nearest
      integer (halves up) to num/den. */
  lemma {:induction false} RoundDivUnique(num: int, den: int, r: int)
    requires den > 0
    requires den * (2 * r - 1) <= 2 * num < den * (2 * r + 1)
    ensures r == RoundDiv(num, den)
  {
    var q := RoundDiv(num, den);
    // den * (2r - 1) <= 2num < den * (2q + 1), so 2r - 1 < 2q + 1
    MulStrictCancel(den, 2 * r - 1, 2 * q + 1);
    // den * (2q - 1) <= 2num < den * (2r + 1), so 2q - 1 < 2r + 1
    MulStrictCancel(den, 2 * q - 1, 2 * r + 1);
  }

  /** The integer formula is `Math.round` of the exact quotient. */
  lemma {:induction false} RoundDivIsJsRound(num: int, den: int)
    requires den > 0
    ensures RoundDiv(num, den) == JsRound(num as real / den as real)
  {
    var x := num as real / den as real;
    var r := JsRound(x);
    ScaleRoundingBounds(num as real, den as real, x, r as real);
    assert (den * (2 * r - 1)) as real == den as real * (2.0 * r as real - 1.0);
    assert (den * (2 * r + 1)) as real == den as real * (2.0 * r as real + 1.0);
    RoundDivUnique(num, den, r);
  }

  /** Rounding a quotient that lies in [lo, hi] stays in [lo, hi]. */
  lemma {:induction false} RoundDivBounds(num: int, den: int, lo: int, hi: int)
    requires den > 0
    requires den * lo <= num <= den * hi
    ensures lo <= RoundDiv(num, den) <= hi
  {
    var r := RoundDiv(num, den);
    MulStrictCancel(den, 2 * lo, 2 * r + 1);
    MulStrictCancel(den, 2 * r - 1, 2 * hi + 1);
  }
}

=== FILE: rules.dfy ===
/** The posture rule engine: two memoryless rule sets, one per mode, mapping
    the keypoints of one frame to an ordered list of violations.

    Every rule is gated on the visibility of each landmark it reads
    (confidence strictly above 0.5); a gated-out rule contributes nothing.
    Thresholds are strict comparisons, and the `angle` and `threshold`
    carried by a violation are the measured quantity and the literal it was
    compared with, scaled as the program scales them.
 */
module Rules {
  import opened Wrappers
  import opened Geometry
  import opened Keypoints

  datatype ViolationKind = NeckAngle | BackSlouch | KneeOverToe | BackAngle | SquatDepth

  datatype Severity = Warning | Error

  datatype Violation = Violation(
    kind: ViolationKind,
    severity: Severity,
    message: string,
    rule: string,
    angle: real,
    threshold: real)

  /** The activity whose rule set is evaluated. */
  datatype Mode = Desk | Squat

  /** Confidence strictly above 0.5 counts as reliably observed. */
  predicate Visible(l: Landmark)
  {
    l.visibility > 0.5
  }

  /** The gate of each rule: every landmark the rule reads is reliably
      observed.  A rule whose gate is closed is skipped for the frame. */
  predicate Observed(k: Keypoints, kind: ViolationKind)
  {
    match kind
    case NeckAngle => Visible(k.nose) && Visible(k.leftShoulder) && Visible(k.leftEar)
    case BackSlouch =>
      Visible(k.leftShoulder) && Visible(k.rightShoulder) && Visible(k.leftHip) && Visible(k.rightHip)
    case KneeOverToe => Visible(k.leftKnee) && Visible(k.leftAnkle)
    case BackAngle => Visible(k.leftShoulder) && Visible(k.leftHip) && Visible(k.leftKnee)
    case SquatDepth => Visible(k.leftHip) && Visible(k.leftKnee)
  }

  // ---------------------------------------------------------------------
  // Measurements
  // ---------------------------------------------------------------------

  /** Angle at the left ear between the left shoulder and the nose. */
  function NeckAngleOf(atan: Atan2Deg, k: Keypoints): real
  {
    Angle(atan, Pos(k.leftShoulder), Pos(k.leftEar), Pos(k.nose))
  }

  /** Signed direction of the hip midpoint -> shoulder midpoint segment. */
  function TorsoTiltOf(atan: Atan2Deg, k: Keypoints): real
  {
    Tilt(atan,
         Midpoint(Pos(k.leftShoulder), Pos(k.rightShoulder)),
         Midpoint(Pos(k.leftHip), Pos(k.rightHip)))
  }

  /** Horizontal offset of the left knee from the left ankle. */
  function KneeOffsetOf(k: Keypoints): real
  {
    k.leftKnee.x - k.leftAnkle.x
  }

  /** Angle at the left hip between the left knee and the left shoulder. */
  function HipAngleOf(atan: Atan2Deg, k: Keypoints): real
  {
    Angle(atan, Pos(k.leftKnee), Pos(k.leftHip), Pos(k.leftShoulder))
  }

  /** Vertical distance from the left knee down to the left hip (y grows downwards). */
  function HipDropOf(k: Keypoints): real
  {
    k.leftHip.y - k.leftKnee.y
  }

  // ---------------------------------------------------------------------
  // Desk rules
  // ---------------------------------------------------------------------

  function NeckRule(atan: Atan2Deg, k: Keypoints): (r: Option<Violation>)
    ensures r.Some? <==>
      k.nose.visibility > 0.5 && k.leftShoulder.visibility > 0.5 && k.leftEar.visibility > 0.5
      && NeckAngleOf(atan, k) > 30.0
    ensures r.Some? ==>
      && r.value.kind == NeckAngle
      && (r.value.severity == Error <==> NeckAngleOf(atan, k) > 45.0)
      && r.value.angle == NeckAngleOf(atan, k)
      && r.value.threshold == 30.0
      && r.value.message == "Forward head posture detected"
      && r.value.rule == "Keep your head aligned with your spine"
  {
    if Observed(k, NeckAngle) then
      var a := NeckAngleOf(atan, k);
      if a > 30.0 then
        Some(Violation(NeckAngle, if a > 45.0 then Error else Warning,
                       "Forward head posture detected",
                       "Keep your head aligned with your spine", a, 30.0))
      else None
    else None
  }

  function SlouchRule(atan: Atan2Deg, k: Keypoints): (r: Option<Violation>)
    ensures r.Some? <==>
      k.leftShoulder.visibility > 0.5 && k.rightShoulder.visibility > 0.5
      && k.leftHip.visibility > 0.5 && k.rightHip.visibility > 0.5
      && Abs(TorsoTiltOf(atan, k)) > 15.0
    ensures r.Some? ==>
      && r.value.kind == BackSlouch
      && (r.value.severity == Error <==> Abs(TorsoTiltOf(atan, k)) > 25.0)
      && r.value.angle == Abs(TorsoTiltOf(atan, k))
      && r.value.threshold == 15.0
      && r.value.message == "Slouching detected"
      && r.value.rule == "Keep your back straight and shoulders aligned"
  {
    if Observed(k, BackSlouch) then
      var tilt := TorsoTiltOf(atan, k);
      if Abs(tilt) > 15.0 then
        Some(Violation(BackSlouch, if Abs(tilt) > 25.0 then Error else Warning,
                       "Slouching detected",
                       "Keep your back straight and shoulders aligned", Abs(tilt), 15.0))
      else None
    else None
  }

  // ---------------------------------------------------------------------
  // Squat rules (left side only)
  // ---------------------------------------------------------------------

  function KneeOverToeRule(k: Keypoints): (r: Option<Violation>)
    ensures r.Some? <==>
      k.leftKnee.visibility > 0.5 && k.leftAnkle.visibility > 0.5
      && (KneeOffsetOf(k) > 0.05 || KneeOffsetOf(k) < -0.05)
    ensures r.Some? ==>
      && r.value.kind == KneeOverToe
      && r.value.severity == Error
      && r.value.angle == Abs(KneeOffsetOf(k)) * 100.0
      && r.value.threshold == 5.0
      && r.value.message == "Knee tracking issue - adjust stance!"
      && r.value.rule == "Keep knees aligned with toes"
  {
    if Observed(k, KneeOverToe) then
      var offset := KneeOffsetOf(k);
      if Abs(offset) > 0.05 then
        Some(Violation(KneeOverToe, Error,
                       "Knee tracking issue - adjust stance!",
                       "Keep knees aligned with toes", Abs(offset) * 100.0, 5.0))
      else None
    else None
  }

  function BackAngleRule(atan: Atan2Deg, k: Keypoints): (r: Option<Violation>)
    ensures r.Some? <==>
      k.leftShoulder.visibility > 0.5 && k.leftHip.visibility > 0.5 && k.leftKnee.visibility > 0.5
      && HipAngleOf(atan, k) < 150.0
    ensures r.Some? ==>
      && r.value.kind == BackAngle
      && (r.value.severity == Error <==> HipAngleOf(atan, k) < 130.0)
      && r.value.angle == HipAngleOf(atan, k)
      && r.value.threshold == 150.0
      && r.value.message == "Keep chest up during squat!"
      && r.value.rule == "Maintain upright torso during squat"
  {
    if Observed(k, BackAngle) then
      var a := HipAngleOf(atan, k);
      if a < 150.0 then
        Some(Violation(BackAngle, if a < 130.0 then Error else Warning,
                       "Keep chest up during squat!",
                       "Maintain upright torso during squat", a, 150.0))
      else None
    else None
  }

  function SquatDepthRule(k: Keypoints): (r: Option<Violation>)
    ensures r.Some? <==>
      k.leftHip.visibility > 0.5 && k.leftKnee.visibility > 0.5 && HipDropOf(k) > -0.02
    ensures r.Some? ==>
      && r.value.kind == SquatDepth
      && r.value.severity == Warning
      && r.value.angle == HipDropOf(k) * 100.0
      && r.value.threshold == -2.0
      && r.value.message == "Squat deeper for full range of motion"
      && r.value.rule == "Descend until hips are below knees"
  {
    if Observed(k, SquatDepth) then
      var d := HipDropOf(k);
      if d > -0.02 then
        Some(Violation(SquatDepth, Warning,
                       "Squat deeper for full range of motion",
                       "Descend until hips are below knees", d * 100.0, -2.0))
      else None
    else None
  }

  // ---------------------------------------------------------------------
  // Rule sets
  // ---------------------------------------------------------------------

  /** The mode whose rule set contains the rule of a kind. */
  function ModeOf(kind: ViolationKind): Mode
  {
    match kind
    case NeckAngle => Desk
    case BackSlouch => Desk
    case KneeOverToe => Squat
    case BackAngle => Squat
    case SquatDepth => Squat
  }

  /** Position of a rule within its mode's evaluation order. */
  function Rank(kind: ViolationKind): nat
  {
    match kind
    case NeckAngle => 0
    case BackSlouch => 1
    case KneeOverToe => 0
    case BackAngle => 1
    case SquatDepth => 2
  }

  /** The rule registered for each violation kind. */
  function RuleFor(atan: Atan2Deg, k: Keypoints, kind: ViolationKind): Option<Violation>
  {
    match kind
    case NeckAngle => NeckRule(atan, k)
    case BackSlouch => SlouchRule(atan, k)
    case KneeOverToe => KneeOverToeRule(k)
    case BackAngle => BackAngleRule(atan, k)
    case SquatDepth => SquatDepthRule(k)
  }

  /** Violations of one mode only, in the mode's rule order, each kind at most once. */
  predicate InRuleOrder(vs: seq<Violation>, mode: Mode)
  {
    && (forall i :: 0 <= i < |vs| ==> ModeOf(vs[i].kind) == mode)
    && (forall i, j :: 0 <= i < j < |vs| ==> Rank(vs[i].kind) < Rank(vs[j].kind))
  }

  predicate Reported(vs: seq<Violation>, kind: ViolationKind)
  {
    exists i :: 0 <= i < |vs| && vs[i].kind == kind
  }

  /** Exactly what the rules of `mode` produce: every reported violation is
      its rule's output, and every rule of the mode that fires is reported. */
  predicate ReportsExactly(atan: Atan2Deg, k: Keypoints, vs: seq<Violation>, mode: Mode)
  {
    && (forall i :: 0 <= i < |vs| ==> RuleFor(atan, k, vs[i].kind) == Some(vs[i]))
    && (forall kind :: ModeOf(kind) == mode && RuleFor(atan, k, kind).Some? ==> Reported(vs, kind))
  }

  function Emit(o: Option<Violation>): seq<Violation>
  {
    if o.Some? then [o.value] else []
  }

  /** Assembling the desk output from the two rule results, in rule order. */
  lemma DeskAssembly(neck: Option<Violation>, slouch: Option<Violation>)
    requires neck.Some? ==> neck.value.kind == NeckAngle
    requires slouch.Some? ==> slouch.value.kind == BackSlouch
    ensures var r := Emit(neck) + Emit(slouch);
      && |r| <= 2
      && InRuleOrder(r, Desk)
      && (forall i :: 0 <= i < |r| ==>
            (r[i].kind == NeckAngle && neck == Some(r[i])) || (r[i].kind == BackSlouch && slouch == Some(r[i])))
      && (neck.Some? ==> Reported(r, NeckAngle))
      && (slouch.Some? ==> Reported(r, BackSlouch))
  {
    var r := Emit(neck) + Emit(slouch);
    assert neck.Some? ==> r[0].kind == NeckAngle;
    assert slouch.Some? ==> r[|r| - 1].kind == BackSlouch;
  }

  /** Assembling the squat output from the three rule results, in rule order. */
  lemma SquatAssembly(knee: Option<Violation>, back: Option<Violation>, depth: Option<Violation>)
    requires knee.Some? ==> knee.value.kind == KneeOverToe
    requires back.Some? ==> back.value.kind == BackAngle
    requires depth.Some? ==> depth.value.kind == SquatDepth
    ensures var r := Emit(knee) + Emit(back) + Emit(depth);
      && |r| <= 3
      && InRuleOrder(r, Squat)
      && (forall i :: 0 <= i < |r| ==>
            || (r[i].kind == KneeOverToe && knee == Some(r[i]))
            || (r[i].kind == BackAngle && back == Some(r[i]))
            || (r[i].kind == SquatDepth && depth == Some(r[i])))
      && (knee.Some? ==> Reported(r, KneeOverToe))
      && (back.Some? ==> Reported(r, BackAngle))
      && (depth.Some? ==> Reported(r, SquatDepth))
  {
    var r := Emit(knee) + Emit(back) + Emit(depth);
    assert knee.Some? ==> r[0].kind == KneeOverToe;
    assert back.Some? ==> r[|Emit(knee)|].kind == BackAngle;
    assert depth.Some? ==> r[|r| - 1].kind == SquatDepth;
  }

  lemma SquatOutputSound(atan: Atan2Deg, k: Keypoints)
    ensures var r := Emit(KneeOverToeRule(k)) + Emit(BackAngleRule(atan, k)) + Emit(SquatDepthRule(k));
      forall i :: 0 <= i < |r| ==> RuleFor(atan, k, r[i].kind) == Some(r[i])
  {
    var knee, back, depth := KneeOverToeRule(k), BackAngleRule(atan, k), SquatDepthRule(k);
    SquatAssembly(knee, back, depth);
    var r := Emit(knee) + Emit(back) + Emit(depth);
    forall i | 0 <= i < |r|
      ensures RuleFor(atan, k, r[i].kind) == Some(r[i])
    {
      assert || (r[i].kind == KneeOverToe && knee == Some(r[i]))
             || (r[i].kind == BackAngle && back == Some(r[i]))
             || (r[i].kind == SquatDepth && depth == Some(r[i]));
    }
  }

  lemma SquatOutputComplete(atan: Atan2Deg, k: Keypoints)
    ensures var r := Emit(KneeOverToeRule(k)) + Emit(BackAngleRule(atan, k)) + Emit(SquatDepthRule(k));
      forall kind :: ModeOf(kind) == Squat && RuleFor(atan, k, kind).Some? ==> Reported(r, kind)
  {
    SquatAssembly(KneeOverToeRule(k), BackAngleRule(atan, k), SquatDepthRule(k));
  }

  /** `checkDeskPosture`: neck rule, then slouch rule. */
  function CheckDeskPosture(atan: Atan2Deg, k: Keypoints): (r: seq<Violation>)
    ensures |r| <= 2
    ensures InRuleOrder(r, Desk)
    ensures ReportsExactly(atan, k, r, Desk)
  {
    var neck := NeckRule(atan, k);
    var slouch := SlouchRule(atan, k);
    DeskAssembly(neck, slouch);
    Emit(neck) + Emit(slouch)
  }

  /** `checkSquatForm`: knee-over-toe, then back angle, then depth. */
  function CheckSquatForm(atan: Atan2Deg, k: Keypoints): (r: seq<Violation>)
    ensures |r| <= 3
    ensures InRuleOrder(r, Squat)
    ensures ReportsExactly(atan, k, r, Squat)
  {
    var knee := KneeOverToeRule(k);
    var back := BackAngleRule(atan, k);
    var depth := SquatDepthRule(k);
    SquatAssembly(knee, back, depth);
    SquatOutputSound(atan, k);
    SquatOutputComplete(atan, k);
    Emit(knee) + Emit(back) + Emit(depth)
  }

  /** Mode dispatch: desk keypoints go to the desk rules, squat to the squat rules. */
  function Evaluate(atan: Atan2Deg, mode: Mode, k: Keypoints): (r: seq<Violation>)
    ensures InRuleOrder(r, mode)
    ensures ReportsExactly(atan, k, r, mode)
    ensures |r| <= (if mode == Desk then 2 else 3)
  {
    match mode
    case Desk => CheckDeskPosture(atan, k)
    case Squat => CheckSquatForm(atan, k)
  }

  /** An unobserved left shoulder silences the whole desk rule set. */
  lemma DeskSilentWithoutLeftShoulder(atan: Atan2Deg, k: Keypoints)
    requires k.leftShoulder.visibility <= 0.5
    ensures CheckDeskPosture(atan, k) == []
  {
  }

  /** An unobserved left knee silences the whole squat rule set. */
  lemma SquatSilentWithoutLeftKnee(atan: Atan2Deg, k: Keypoints)
    requires k.leftKnee.visibility <= 0.5
    ensures CheckSquatForm(atan, k) == []
  {
  }

  /** The knee-over-toe limit is strict: an offset of exactly 0.05 is not
      reported, while a larger one is reported as an error. */
  lemma KneeOverToeBoundary(atan: Atan2Deg, k: Keypoints)
    requires Visible(k.leftKnee) && Visible(k.leftAnkle)
    ensures KneeOffsetOf(k) == 0.05 ==> !Reported(CheckSquatForm(atan, k), KneeOverToe)
    ensures KneeOffsetOf(k) > 0.05 ==>
      CheckSquatForm(atan, k)[0].kind == KneeOverToe && CheckSquatForm(atan, k)[0].severity == Error
  {
  }

  /** The slouch tilt is the direction of the hip-to-shoulder segment measured
      from the horizontal axis, so an upright torso (shoulders straight above
      the hips, which atan2 places at -90 degrees because y grows downwards)
      measures 90 and is reported as a slouch of severity error. */
  lemma UprightTorsoReportedAsSlouch(atan: Atan2Deg, k: Keypoints)
    requires Visible(k.leftShoulder) && Visible(k.rightShoulder) && Visible(k.leftHip) && Visible(k.rightHip)
    requires k.leftShoulder.x + k.rightShoulder.x == k.leftHip.x + k.rightHip.x
    requires k.leftShoulder.y + k.rightShoulder.y < k.leftHip.y + k.rightHip.y
    requires forall y :: y < 0.0 ==> atan(y, 0.0) == -90.0
    ensures SlouchRule(atan, k).Some?
    ensures SlouchRule(atan, k).value.severity == Error && SlouchRule(atan, k).value.angle == 90.0
  {
    var top := Midpoint(Pos(k.leftShoulder), Pos(k.rightShoulder));
    var base := Midpoint(Pos(k.leftHip), Pos(k.rightHip));
    assert top.x - base.x == 0.0;
    assert top.y - base.y < 0.0;
  }
}

=== FILE: session.dfy ===
/** Running session statistics: frames analysed, frames with at least one
    violation, and the rounded percentage of clean frames. */
module Session {
  import opened Rounding

  datatype Stats = Stats(totalFrames: nat, violationFrames: nat, accuracy: int)

  /** Statistics of a session that has seen no frame. */
  const Initial: Stats := Stats(0, 0, 100)

  /** `Math.round(((total - violating) / total) * 100)`, and 100 before any frame. */
  function AccuracyOf(total: nat, violating: nat): (a: int)
    ensures total == 0 ==> a == 100
    ensures total > 0 ==> a == JsRound(((total - violating) as real / total as real) * 100.0)
    ensures violating <= total ==> 0 <= a <= 100
  {
    if total > 0 then
      var a := RoundDiv(100 * (total - violating), total);
      RoundDivIsJsRound(100 * (total - violating), total);
      assert (100 * (total - violating)) as real / total as real
          == ((total - violating) as real / total as real) * 100.0;
      if violating <= total then RoundDivBounds(100 * (total - violating), total, 0, 100); a
      else a
    else 100
  }

  /** Statistics that some run of frames can have produced. */
  predicate Valid(s: Stats)
  {
    s.violationFrames <= s.totalFrames && s.accuracy == AccuracyOf(s.totalFrames, s.violationFrames)
  }

  /** The update applied for one analysed frame. */
  function Record(s: Stats, hadViolation: bool): (r: Stats)
    ensures r.totalFrames == s.totalFrames + 1
    ensures r.violationFrames == s.violationFrames + (if hadViolation then 1 else 0)
    ensures r.violationFrames <= r.totalFrames ==> 0 <= r.accuracy <= 100
    ensures Valid(s) ==> Valid(r)
  {
    var total := s.totalFrames + 1;
    var violating := s.violationFrames + (if hadViolation then 1 else 0);
    Stats(total, violating, AccuracyOf(total, violating))
  }

  /** The statistics after a sequence of frames, each flagged with whether it
      produced a violation. */
  function RecordAll(s: Stats, flags: seq<bool>): Stats
    decreases |flags|
  {
    if |flags| == 0 then s else RecordAll(Record(s, flags[0]), flags[1..])
  }

  function CountTrue(flags: seq<bool>): (n: nat)
    ensures n <= |flags|
  {
    if |flags| == 0 then 0 else (if flags[0] then 1 else 0) + CountTrue(flags[1..])
  }

  /** Every frame is counted once, and every violating frame once more. */
  lemma {:induction false} RecordAllCounts(s: Stats, flags: seq<bool>)
    ensures RecordAll(s, flags).totalFrames == s.totalFrames + |flags|
    ensures RecordAll(s, flags).violationFrames == s.violationFrames + CountTrue(flags)
    decreases |flags|
  {
    if |flags| > 0 {
      RecordAllCounts(Record(s, flags[0]), flags[1..]);
    }
  }

  /** The accuracy stays the rounded clean-frame percentage of the counts. */
  lemma {:induction false} RecordAllValid(s: Stats, flags: seq<bool>)
    requires Valid(s)
    ensures Valid(RecordAll(s, flags))
    decreases |flags|
  {
    if |flags| > 0 {
      RecordAllValid(Record(s, flags[0]), flags[1..]);
    }
  }

  /** Ten frames of which three violate give 70% accuracy. */
  lemma TenFramesThreeViolating(flags: seq<bool>)
    requires |flags| == 10 && CountTrue(flags) == 3
    ensures RecordAll(Initial, flags) == Stats(10, 3, 70)
  {
    RecordAllCounts(Initial, flags);
    RecordAllValid(Initial, flags);
  }
}

=== FILE: wrappers.dfy ===
/** The optional value the model uses wherever the program has `null`. */
module Wrappers {

  /** `null` in the source becomes `None`. */
  datatype Option<+T> = None | Some(value: T)
}
